=== FILE: README.md ===
# To-do client: services, screen state and session, in Dafny

This project models the logic of the React Native client of a shared to-do
list service. The client does three things:

- Its **service functions** call the backend and turn each answer into a
  value: `taskService.ts`, `todoService.ts` and `authService.ts`.
- Its **screens** show those values: the home, list, calendar and
  list-detail screens hold lists and tasks in state and update them; the
  two login screens hold only the typed username.
- Its **session slice** holds the logged-in user's id.

Every network call is treated as an input. `Http.Response<T>` is one of:

- `Ok(data)`: the body;
- `HttpError(status, detail, message)`: a status with the optional FastAPI
  `detail` and `message` fields;
- `NoResponse`: the request was sent and no answer came back;
- `Other`: anything else that throws.

An async function that can throw returns an `Http.Settled<T>`, which is
either `Fulfilled(value)` or `Rejected(message)`.

The JavaScript semantics the code relies on are defined once, in module
`Js`:

- optional fields and `??`;
- truthiness and `||`;
- `String.prototype.trim`, using the full ECMAScript white-space and
  line-terminator set;
- `Number(...)` on integers, with NaN.

The service modules are pure functions. The home, list, calendar and
list-detail screens are classes:

- their `useState` variables are fields;
- their handlers and effects are methods that take the responses as
  parameters;
- their pure parts (toggle, filter, validation, defaulting) are functions with
  their own lemmas.

The two login screens hold only the typed username. They are functions of
that text and the `loginUser` response, and the intended `handleLogin` is a
method that updates the session slice.

The session slice is a class whose reducers assign its one field.

Three consequences of the code are worth knowing:

- **The `completed` flag.** It is `progress != "Not Started"`
  (`frontend/api/taskService.ts:56,81`), so a task whose progress is
  "Uncompleted" is shown as completed
  (`TaskService.UncompletedReadsAsCompleted`).
- **Missing ids are not normalised in the services.** A missing list or
  owner id is defaulted to -1 only where the screens build
  `taskWithDefaults`.
- **The list screen shows raw records.** It uses the list service's
  `fetchTasks`, which passes the records through without a `completed`
  field, so its defaulting always yields `completed == false`.

## Model

| member | source | states |
|---|---|---|
| TaskService.Normalize | frontend/api/taskService.ts:47-57 | every server field of the raw record is copied unchanged (`Raw(t) == raw`), and `completed` holds exactly when progress is not "Not Started" |
| TaskService.NormalizeRaw | frontend/api/taskService.ts:47-57 | a task whose flag agrees with its progress is recovered from its server fields: `Normalize` is the inverse of `Raw` on such tasks |
| TaskService.UncompletedReadsAsCompleted | frontend/api/taskService.ts:56 | a record in progress "Uncompleted" yields `completed == true` |
| TaskService.NormalizeAll | frontend/api/taskService.ts:47-57 | the mapped array has the same length as the raw array, and element i is the normalisation of raw element i |
| TaskService.FetchTasks | frontend/api/taskService.ts:40-62 | on success with a `tasks` array: same length and order, fields copied, flag derived from progress; on any failure, including a body without `tasks`: `[]` |
| TaskService.AddTaskToServer | frontend/api/taskService.ts:65-91 | a task exactly when the request succeeded and the body has `task`; that task is what `fetchTasks` would make of a one-element array holding the record; `null` on any failure |
| TodoService.Summarize | frontend/api/todoService.ts:26-30 | id and name copied; `share` is true exactly when `shared` is present and true (`shared ?? false`) |
| TodoService.SummarizeAll | frontend/api/todoService.ts:26-30 | one summary per list, same length and order |
| TodoService.FetchTodoLists | frontend/api/todoService.ts:20-39 | on success: the lists mapped in order with `share = shared ?? false`; a missing `todolists` field, a 404 and every other failure all give `[]` |
| TodoService.FetchRawTasks | frontend/api/todoService.ts:43-52 | on success: the body's `tasks` field unmodified, including an absent one; on failure: `[]` |
| TodoService.CreateTodoList | frontend/api/todoService.ts:54-69 | fulfilled with the body exactly when the request succeeded; otherwise rejected with the server's `detail` when it is a non-empty string, else "Failed to create ToDoList"; a rejection message is never empty |
| TodoService.JoinTodoList | frontend/api/todoService.ts:72-111 | fulfilled with the body exactly when the request succeeded; rejections in precedence order: 404 gives "invalid invite code", 500 gives "service error, try again", another status gives `detail`, else `message`, else "failed to join a list", no response gives "unable to connect with the server", anything else gives "other errors"; a rejection message is never empty |
| TodoService.JoinDistinguishesCodeFromFault | frontend/api/todoService.ts:97-101 | a 404 and a 500 never give the same result, whatever their bodies |
| AuthService.RegisterUser | frontend/api/authService.ts:6-17 | the body unchanged on success; otherwise the fixed failure record with `success == false` and "An error occurred, please try again."; reports success only when the server did |
| AuthService.LoginUser | frontend/api/authService.ts:20-31 | the body unchanged on success; otherwise the same fixed failure record; reports success only when the server did |
| AuthService.GetUserDetails | frontend/api/authService.ts:34-47 | a record exactly when the request succeeded and `exists` is true, carrying the body's `user_id` and `username`; `null` when the user does not exist and on any error |
| AuthSlice.UserSlice.constructor | frontend/store/authSlice.ts:7-9 | the initial state has no user id |
| AuthSlice.UserSlice.SetUserId | frontend/store/authSlice.ts:15-17 | the id becomes the payload, and the slice has no other field |
| AuthSlice.UserSlice.Logout | frontend/store/authSlice.ts:18-20 | the id becomes `null` whatever it was, so a second logout changes nothing and logout after `setUserId` gives back the initial state |
| ToDoListDetailScreen.ToggleCompletion | frontend/app/ToDoListDetailScreen.tsx:76-82 | same length and order; a task's `completed` flips exactly when its id matches; no other field of any task changes |
| ToDoListDetailScreen.ToggleTwice | frontend/app/ToDoListDetailScreen.tsx:79 | toggling the same id twice restores the array |
| ToDoListDetailScreen.AddTaskRejection | frontend/app/ToDoListDetailScreen.tsx:86-97 | checks in order: blank after trimming, more than 50 characters untrimmed, missing list id or user id; passes exactly when none applies |
| ToDoListDetailScreen.AlertOf | frontend/app/ToDoListDetailScreen.tsx:86-122 | an alert is shown exactly when no task was added: a refusal shows its own alert, a failed request "Failed to add task." |
| ToDoListDetailScreen.DetailScreen.constructor | frontend/app/ToDoListDetailScreen.tsx:25-27 | no list selected, no tasks, empty input |
| ToDoListDetailScreen.DetailScreen.SetNewTask | frontend/app/ToDoListDetailScreen.tsx:27 | the input becomes the typed text; nothing else changes |
| ToDoListDetailScreen.DetailScreen.ApplyRouteParam | frontend/app/ToDoListDetailScreen.tsx:32-36 | a non-empty route id is converted with `Number` (possibly NaN) and selected; an absent or empty one changes nothing |
| ToDoListDetailScreen.DetailScreen.LoadTasks | frontend/app/ToDoListDetailScreen.tsx:39-51 | tasks are requested exactly when the selection is truthy (not absent, 0 or NaN), and then become `fetchTasks`' result for the selected id; nothing else changes |
| ToDoListDetailScreen.DetailScreen.ToggleTaskCompletion | frontend/app/ToDoListDetailScreen.tsx:76-82 | `tasks` becomes the toggled array; selection and input unchanged |
| ToDoListDetailScreen.DetailScreen.AddTask | frontend/app/ToDoListDetailScreen.tsx:85-127 | the press is refused exactly when a check fails, and then sends nothing and changes nothing; otherwise a payload is sent with the trimmed text, the user as assignee and owner, today's date and the selected list; a created task replaces `tasks` by `fetchTasks` of the selected list and clears the input; a `null` result leaves both unchanged |
| CalendarScreen.FilterByDate | frontend/app/CalendarScreen.tsx:40 | every kept task is due on the selected date and no more tasks are kept than given |
| CalendarScreen.FilterByDateCount | frontend/app/CalendarScreen.tsx:40 | a task due on the date is kept exactly as often as it occurs; any other task is dropped |
| CalendarScreen.FilterByDateAppend | frontend/app/CalendarScreen.tsx:40 | filtering distributes over concatenation, so the kept tasks stay in their original order |
| CalendarScreen.TaskWithDefaults | frontend/app/CalendarScreen.tsx:89-94 | missing list and owner ids become -1; every other field, including `completed`, is copied |
| CalendarScreen.CalendarScreen.FilteredTodos | frontend/app/CalendarScreen.tsx:40 | every shown task is due on the selected date, and each task due then is shown as often as it occurs in `tasks` |
| CalendarScreen.CalendarScreen.constructor | frontend/app/CalendarScreen.tsx:32-39 | no lists, no selection, no tasks, empty date |
| CalendarScreen.CalendarScreen.SelectDate | frontend/app/CalendarScreen.tsx:39 | the selected date changes and nothing else does |
| CalendarScreen.CalendarScreen.LoadTodoLists | frontend/app/CalendarScreen.tsx:43-61 | for a truthy user id the lists are replaced and the first one, if any, is selected; otherwise the selection is unchanged |
| CalendarScreen.CalendarScreen.LoadTasks | frontend/app/CalendarScreen.tsx:64-77 | tasks are fetched exactly when the selected id is truthy (not absent or 0), and then become the normalised result of fetching the selected list |
| CalendarScreen.CalendarScreen.ToggleTaskCompletion | frontend/app/CalendarScreen.tsx:80-86 | the same toggle as the detail screen; lists, selection and date unchanged |
| ListScreen.IdsOf | frontend/app/ListScreen.tsx:44-46 | the set holds the id of every list and no other value |
| ListScreen.TaskWithDefaults | frontend/app/ListScreen.tsx:72-77 | missing list and owner ids become -1 and every other field is copied; raw records have no `completed`, so it is always false |
| ListScreen.ListScreen.constructor | frontend/app/ListScreen.tsx:25-27 | no lists, no selection, an empty dictionary |
| ListScreen.ListScreen.TasksFor | frontend/app/ListScreen.tsx:114 | the stored tasks of a list; `[]` for a list with no entry or an `undefined` entry |
| ListScreen.ListScreen.LoadTasksForList | frontend/app/ListScreen.tsx:58-68 | the entry for the list becomes the fetched tasks and every other key keeps its entry |
| ListScreen.ListScreen.LoadTodoLists | frontend/app/ListScreen.tsx:30-55 | for a truthy user id the lists are replaced, the first is selected, and the keys become the old keys plus every list's id, each holding that list's fetched tasks; other keys keep their entries |
| HomeScreen.FromSummaries | frontend/app/HomeScreen.tsx:36 | the fetched lists in order with their id, name and share flag |
| HomeScreen.CreateRejection | frontend/app/HomeScreen.tsx:47-55 | a name blank after trimming is refused first, then a falsy user id (absent or 0); passes exactly when neither applies |
| HomeScreen.ListRoute | frontend/app/HomeScreen.tsx:72 | the segment `${listId}` is non-empty, and `Number` reads the list id back from it |
| HomeScreen.HomeScreen.constructor | frontend/app/HomeScreen.tsx:26-28 | no lists, empty name, not shared |
| HomeScreen.HomeScreen.EditForm | frontend/app/HomeScreen.tsx:27-28 | the name and shared flag take the new values and the lists are kept |
| HomeScreen.HomeScreen.LoadTodoLists | frontend/app/HomeScreen.tsx:31-43 | for a truthy user id the fetched lists replace `todoLists` wholesale |
| HomeScreen.HomeScreen.AppendAndReset | frontend/app/HomeScreen.tsx:59-61 | the new list is placed after the unchanged earlier lists, and the name and shared flag are reset |
| HomeScreen.HomeScreen.HandleCreateTodoList | frontend/app/HomeScreen.tsx:46-68 | the press is refused exactly when a check fails, and then sends nothing and changes nothing; otherwise the request is sent, and it carries the user id, 1 or 0 for the checkbox and the untrimmed name; on success `{id, name}` is appended after the unchanged earlier lists and the form is reset; on failure nothing changes |
| LoginScreen.Decide | frontend/app/LoginScreen.tsx:14-31 | a blank username is refused whatever the server says; then an unsuccessful response is refused with its message; then a `user_id` that `Number` makes NaN is refused; acceptance only on a server success, with the numeric id |
| LoginScreen.HandleLoginAsWritten | frontend/app/LoginScreen.tsx:13-45 | as written no login stores a session; a blank username shows "Please enter a username!", an unsuccessful response shows its message, a non-numeric id shows "Invalid user ID received.", and an accepted login shows the retry alert |
| LoginScreen.AcceptedLoginIsLost | frontend/app/LoginScreen.tsx:35 | a concrete server-accepted login that ends in the retry alert with no session |
| LoginScreen.HandleLogin | frontend/app/LoginScreen.tsx:13-45 | on acceptance the session holds the numeric id and the user is greeted by name; every other case shows the alert as written and leaves the session alone |
| ScreensLoginScreen.HandleLogin | frontend/app/screens/LoginScreen.tsx:8-30 | a blank username is refused first; an unsuccessful response shows its message; a success greets the user by the name as typed |
| ScreensLoginScreen.FailedRequestShowsServiceMessage | frontend/app/screens/LoginScreen.tsx:15-29 | a failed request shows the service's failure message, not the screen's own retry alert, because `loginUser` never rejects |
| Js.Trim | frontend/app/ToDoListDetailScreen.tsx:86 | `trim`: the result is a contiguous part of the input, white space lies on both sides of it, it neither starts nor ends with white space, and it is empty exactly when the input is all white space |
| Js.StringToNumber | frontend/app/ToDoListDetailScreen.tsx:34 | `Number` of a blank string is 0; of a string whose trimmed text is a run of digits, optionally preceded by `-` or `+`, it is that signed value; NaN exactly for any other string |
| Js.ToNumber | frontend/app/LoginScreen.tsx:28 | `Number(user_id)`: a number is itself, `null` is 0, a boolean is 1 or 0, a string is read as `Js.StringToNumber` reads it, `undefined` is NaN; NaN exactly for `undefined` and non-numeral strings |
| Js.NumberOfDecimalText | frontend/app/HomeScreen.tsx:72 | writing an integer id into a route and reading it back with `Number` gives the id |

## Left out

- The HTTP transport (axios, URLs, headers, query parameters): each call's result is an input value.
- Concurrency: each handler and effect is one sequential step given its responses. Several `loadTasksForList` requests finishing out of order, and a state update after the screen is gone, are not modelled.
- Logging, alerts and navigation. `console` output and `router.push`/`replace` are left out; an alert is a returned string.
- The keyboard animation, the scroll-to-end timer and all rendering are left out, including the rendering files, the styles and `renderTodoList`'s shared styling, which reads `share` as `FetchTodoLists` produced it.
- The clock: the due date `new Date().toISOString()` is the parameter `today`.
- Js.StringToNumber: only integers, optionally signed, are read. Fractions, exponents, hexadecimal, `Infinity` and the other `Number` forms are NaN here, whereas JavaScript gives them a value. Non-integer numbers are not modelled at all, and numbers are exact unbounded integers: JavaScript's loss of precision above 2^53 and the exponent form `${n}` uses from 1e21 are not modelled, which matters only for ids far beyond any the server issues.
- Response bodies are assumed to be objects of the declared shape. A 2xx body that is JSON `null` would make `response.success` throw inside the login screens' `try` and show their retry alert; it would likewise make the `error.response.data.detail` read in `joinTodoList` throw. Neither path is modelled.
- HomeScreen.ListRoute: the model states only that `Number` reads the id back from the pushed segment. The detail screen is declared as a static route (`frontend/app/_layout.tsx:17`), and whether the router passes `/ToDoListDetailScreen/${listId}` to it as its `listId` parameter is routing behaviour, which is not part of this model.
- Js.Trim: counts characters, not UTF-16 code units. The 50-character limit compares the Dafny length of the text.
- A FastAPI `detail` that is not a string (a validation error list) is not modelled. Only an absent or string `detail` is.
- Records inside a server array are assumed to have the declared shape. A `null` element or a missing `id` is not modelled.
- AuthSlice.UserSlice: `userId` is declared `string | null` but holds an optional integer here, because every screen uses it as a numeric id.
- The screens read `state.user.username`, which the slice does not hold. Those reads (header texts) are not modelled.
- LoginScreen.HandleLogin: the evidently intended `setUser({userId, username})` stores only the id. The slice has no username field and only `setUserId` exists.
- The screens' `catch` around `fetchTasks`, `fetchTodoLists` and `addTaskToServer` are unreachable because those services never throw. They are not modelled as separate paths.
- frontend/store/store.ts (persistence wiring) and frontend/types/types.ts are not part of this model. The backend is not part of this model either.

## Findings

| source | as written | input that shows it | evidently intended | confidence | as-written member | corrected member |
|---|---|---|---|---|---|---|
| frontend/app/LoginScreen.tsx:6,35 | imports and dispatches `setUser`, which frontend/store/authSlice.ts:24 does not export; the call throws a `TypeError` that the `catch` turns into "An error occurred. Please try again.", and no session is stored | username "ann", server body `{success: true, user_id: 7}` | dispatch `setUserId(7)`, greet "Hello, ann!" | high; not executed | LoginScreen.HandleLoginAsWritten, LoginScreen.AcceptedLoginIsLost | LoginScreen.HandleLogin |

=== FILE: auth_service.dfy ===
/** frontend/api/authService.ts: registration, login and user lookup. None of
    them rejects: a failed call gives a fixed failure record or `null`. */
module AuthService {
  import opened Js
  import opened Http

  /** The body of `POST /register` and `POST /login`:
      `{ success, user_id?, message }`. */
  datatype AuthBody = AuthBody(success: bool, userId: Value, message: string)

  /** The body of `GET /users/{id}`; `userExists` is its `exists` field. */
  datatype LookupBody = LookupBody(userExists: bool, userId: int, username: string)

  /** `{ user_id, username }` as `getUserDetails` returns it. */
  datatype UserDetails = UserDetails(userId: int, username: string)

  const RetryMessage := "An error occurred, please try again."

  /** The record both calls resolve to when the request fails. */
  const FailureRecord := AuthBody(false, Undefined, RetryMessage)

  /** `registerUser(username)` given the response to `POST /register`: the
      body unchanged, or the failure record; success is only ever reported
      by the server. */
  function RegisterUser(resp: Response<AuthBody>): (b: AuthBody)
    ensures resp.Ok? ==> b == resp.data
    ensures !resp.Ok? ==> b == FailureRecord
    ensures b.success ==> resp.Ok? && resp.data.success
  {
    match resp
    case Ok(body) => body
    case _ => FailureRecord
  }

  /** `loginUser(username)` given the response to `POST /login`: the body
      unchanged, or the failure record; success is only ever reported by the
      server. */
  function LoginUser(resp: Response<AuthBody>): (b: AuthBody)
    ensures resp.Ok? ==> b == resp.data
    ensures !resp.Ok? ==> b == FailureRecord && !b.success && b.message == RetryMessage
    ensures b.success ==> resp.Ok? && resp.data.success
  {
    match resp
    case Ok(body) => body
    case _ => FailureRecord
  }

  /** `getUserDetails(userId)` given the response to `GET /users/{userId}`:
      the id and name from the body when it says the user exists, `null`
      when it does not and when the request fails. */
  function GetUserDetails(resp: Response<LookupBody>): (u: Option<UserDetails>)
    ensures u.Some? <==> resp.Ok? && resp.data.userExists
    ensures u.Some? ==> u.value.userId == resp.data.userId && u.value.username == resp.data.username
  {
    match resp
    case Ok(body) => if body.userExists then Some(UserDetails(body.userId, body.username)) else None
    case _ => None
  }
}

=== FILE: auth_slice.dfy ===
/** frontend/store/authSlice.ts: the session slice of the store. Its one
    field is the logged-in user's id; the reducers assign it in place on the
    draft state. */
module AuthSlice {
  import opened Js

  /** The action creators the slice exports. */
  const ActionCreators: set<string> := {"setUserId", "logout"}

  /** `UserState`. The field is declared `string | null`, but every screen
      uses it as a numeric id, so it holds an optional integer here. */
  class UserSlice {
    var userId: Option<int>

    /** `initialState`: nobody is logged in. */
    constructor ()
      ensures userId == None
    {
      userId := None;
    }

    /** `setUserId(payload)`: the id becomes the payload. */
    method SetUserId(payload: Option<int>)
      modifies this
      ensures userId == payload
    {
      userId := payload;
    }

    /** `logout()`: the id becomes `null` whatever it was, so a second
        logout changes nothing and a logout after `setUserId` gives back the
        initial state. */
    method Logout()
      modifies this
      ensures userId == None
    {
      userId := None;
    }
  }
}

=== FILE: calendar_screen.dfy ===
/** frontend/app/CalendarScreen.tsx: the user's lists, the tasks of the
    selected list, and the tasks due on the date picked in the calendar. */
module CalendarScreen {
  import opened Js
  import opened Http
  import opened TaskService
  import opened TodoService
  import ToDoListDetailScreen

  /** `filteredTodos`: the tasks due on `date`, in their original order. A
      task without a due date is never due. */
  function FilterByDate(tasks: seq<Task>, date: string): (r: seq<Task>)
    ensures |r| <= |tasks|
    ensures forall i :: 0 <= i < |r| ==> r[i].dueDate == Some(date)
  {
    if tasks == [] then []
    else
      (if tasks[0].dueDate == Some(date) then [tasks[0]] else []) + FilterByDate(tasks[1..], date)
  }

  /** A task due on `date` appears in the result as often as in `tasks`;
      any other task does not appear. */
  lemma {:induction false} FilterByDateCount(tasks: seq<Task>, date: string, t: Task)
    ensures multiset(FilterByDate(tasks, date))[t] == if t.dueDate == Some(date) then multiset(tasks)[t] else 0
  {
    if tasks != [] {
      assert tasks == [tasks[0]] + tasks[1..];
      FilterByDateCount(tasks[1..], date, t);
    }
  }

  /** `FilterByDateCount` for every task at once. */
  lemma FilterByDateCountAll(tasks: seq<Task>, date: string)
    ensures forall t :: multiset(FilterByDate(tasks, date))[t] == if t.dueDate == Some(date) then multiset(tasks)[t] else 0
  {
    forall t {
      FilterByDateCount(tasks, date, t);
    }
  }

  /** Filtering a concatenation filters each part and keeps them in order;
      with the single-task case this fixes the order of the result. */
  lemma {:induction false} FilterByDateAppend(a: seq<Task>, b: seq<Task>, date: string)
    ensures FilterByDate(a + b, date) == FilterByDate(a, date) + FilterByDate(b, date)
  {
    if a == [] {
      assert a + b == b;
    } else {
      var head := if a[0].dueDate == Some(date) then [a[0]] else [];
      assert (a + b)[0] == a[0];
      assert (a + b)[1..] == a[1..] + b;
      assert FilterByDate(a + b, date) == head + FilterByDate(a[1..] + b, date);
      assert FilterByDate(a, date) == head + FilterByDate(a[1..], date);
      FilterByDateAppend(a[1..], b, date);
    }
  }

  /** `taskWithDefaults`: a missing list or owner id becomes -1 and a
      missing `completed` flag false; every other field is copied. */
  function TaskWithDefaults(t: Task): (d: TaskDetail)
    ensures d.id == t.id && d.description == t.description && d.progress == t.progress
    ensures d.assignee == t.assignee && d.dueDate == t.dueDate && d.createdAt == t.createdAt
    ensures t.todolistId.Some? ==> d.todolistId == t.todolistId.value
    ensures t.todolistId.None? ==> d.todolistId == -1
    ensures t.ownerId.Some? ==> d.ownerId == t.ownerId.value
    ensures t.ownerId.None? ==> d.ownerId == -1
    ensures d.completed == t.completed
  {
    TaskDetail(t.id, t.description, t.progress, t.assignee, t.dueDate, t.createdAt,
               t.todolistId.OrElse(-1), t.ownerId.OrElse(-1), t.completed)
  }

  /** The state of the screen. */
  class CalendarScreen {
    var todoLists: seq<TodoListSummary>
    var selectedTodoList: Option<int>
    var tasks: seq<Task>
    var selectedDate: string

    constructor ()
      ensures todoLists == [] && selectedTodoList == None && tasks == [] && selectedDate == ""
    {
      todoLists := [];
      selectedTodoList := None;
      tasks := [];
      selectedDate := "";
    }

    /** `filteredTodos`, what the list shows: only tasks due on the selected
        date, each of them as often as it occurs in `tasks`. */
    function FilteredTodos(): (r: seq<Task>)
      reads this
      ensures forall i :: 0 <= i < |r| ==> r[i].dueDate == Some(selectedDate)
      ensures forall t :: multiset(r)[t] == if t.dueDate == Some(selectedDate) then multiset(tasks)[t] else 0
    {
      FilterByDateCountAll(tasks, selectedDate);
      FilterByDate(tasks, selectedDate)
    }

    /** The calendar's `onDayPress`. */
    method SelectDate(date: string)
      modifies this
      ensures selectedDate == date
      ensures todoLists == old(todoLists) && selectedTodoList == old(selectedTodoList) && tasks == old(tasks)
    {
      selectedDate := date;
    }

    /** The effect on `userId`, given the response to
        `GET /todolists/{userId}`: for a truthy id the lists are replaced by
        the fetched ones and the first of them, if any, is selected. */
    method LoadTodoLists(userId: Option<int>, resp: Response<ListsBody>)
      modifies this
      ensures TruthyId(userId) ==> todoLists == FetchTodoLists(resp)
      ensures !TruthyId(userId) ==> todoLists == old(todoLists)
      ensures selectedTodoList ==
        if TruthyId(userId) && |todoLists| > 0 then Some(todoLists[0].id) else old(selectedTodoList)
      ensures tasks == old(tasks) && selectedDate == old(selectedDate)
    {
      if TruthyId(userId) {
        var lists := FetchTodoLists(resp);
        todoLists := lists;
        if |lists| > 0 {
          selectedTodoList := Some(lists[0].id);
        }
      }
    }

    /** The effect on `selectedTodoList`, given for each list id the
        response to `GET /tasks/{id}`: the tasks of the selected list are
        fetched (normalized by `fetchTasks`) only when the selected id is
        truthy, not absent or 0. */
    method LoadTasks(fetch: int -> Response<TasksBody>) returns (requested: bool)
      modifies this
      ensures requested <==> TruthyId(selectedTodoList)
      ensures tasks == if requested then FetchTasks(fetch(selectedTodoList.value)) else old(tasks)
      ensures todoLists == old(todoLists) && selectedTodoList == old(selectedTodoList)
      ensures selectedDate == old(selectedDate)
    {
      requested := TruthyId(selectedTodoList);
      if requested {
        tasks := FetchTasks(fetch(selectedTodoList.value));
      }
    }

    /** The checkbox handler, the same local patch as on the detail screen. */
    method ToggleTaskCompletion(id: int)
      modifies this
      ensures tasks == ToDoListDetailScreen.ToggleCompletion(old(tasks), id)
      ensures todoLists == old(todoLists) && selectedTodoList == old(selectedTodoList)
      ensures selectedDate == old(selectedDate)
    {
      tasks := ToDoListDetailScreen.ToggleCompletion(tasks, id);
    }
  }
}

=== FILE: home_screen.dfy ===
/** frontend/app/HomeScreen.tsx: the user's lists and the form that creates
    a new one. A created list is appended locally; nothing is refetched. */
module HomeScreen {
  import opened Js
  import opened Http
  import opened TodoService

  const EmptyNameAlert := "List name cannot be empty!"
  const NoUserAlert := "User ID not found!"
  const CreateErrorAlert := "An error occurred while creating the ToDoList."

  /** An element of the screen's `todoLists` array. Fetched lists carry all
      three fields; a list appended after creation has the id the server
      returned (possibly none) and no `share` field. */
  datatype HomeList = HomeList(id: Option<int>, name: string, share: Option<bool>)

  function FromSummary(l: TodoListSummary): HomeList {
    HomeList(Some(l.id), l.name, Some(l.share))
  }

  /** The fetched lists, element by element. */
  function FromSummaries(ls: seq<TodoListSummary>): (hs: seq<HomeList>)
    ensures |hs| == |ls|
    ensures forall i :: 0 <= i < |ls| ==>
      hs[i].id == Some(ls[i].id) && hs[i].name == ls[i].name && hs[i].share == Some(ls[i].share)
  {
    if ls == [] then [] else [FromSummary(ls[0])] + FromSummaries(ls[1..])
  }

  /** The checks of `handleCreateTodoList`, in order: a name blank after
      trimming, then a falsy user id (absent or 0). `None` means both passed. */
  function CreateRejection(name: string, userId: Option<int>): (alert: Option<string>)
    ensures AllWhiteSpace(name) ==> alert == Some(EmptyNameAlert)
    ensures !AllWhiteSpace(name) && !TruthyId(userId) ==> alert == Some(NoUserAlert)
    ensures alert.None? <==> !AllWhiteSpace(name) && TruthyId(userId)
  {
    if Trim(name) == "" then Some(EmptyNameAlert)
    else if !TruthyId(userId) then Some(NoUserAlert)
    else None
  }

  /** The success alert, quoting the name as typed. */
  function CreatedMessage(name: string): string {
    "List \"" + name + "\" has been created successfully!"
  }

  /** What one press of "Create ToDoList" did. */
  datatype CreateOutcome =
    /** a check failed and nothing was sent */
    | Refused(alert: string)
    /** the request was sent and the list created */
    | Created(params: CreateParams, alert: string)
    /** the request was sent and `createTodoList` rejected */
    | Failed(params: CreateParams, alert: string)

  /** `${listId}`, the last segment of the path `handleListPress(listId)`
      pushes: a non-empty string from which `Number` reads the same id
      back. Whether the router hands it to the detail screen as its `listId`
      parameter is not part of this model. */
  function ListRoute(listId: int): (segment: string)
    ensures TruthyText(Some(segment))
    ensures StringToNumber(segment) == Finite(listId)
  {
    NumberOfDecimalText(listId);
    DecimalText(listId)
  }

  /** The state of the screen. */
  class HomeScreen {
    var todoLists: seq<HomeList>
    var newListName: string
    var isShared: bool

    constructor ()
      ensures todoLists == [] && newListName == "" && !isShared
    {
      todoLists := [];
      newListName := "";
      isShared := false;
    }

    /** The name field's `onChangeText` and the checkbox's `onValueChange`. */
    method EditForm(name: string, shared: bool)
      modifies this
      ensures newListName == name && isShared == shared && todoLists == old(todoLists)
    {
      newListName := name;
      isShared := shared;
    }

    /** The effect on `userId`, given the response to
        `GET /todolists/{userId}`: for a truthy id the fetched lists replace
        `todoLists` wholesale. */
    method LoadTodoLists(userId: Option<int>, resp: Response<ListsBody>)
      modifies this
      ensures todoLists == if TruthyId(userId) then FromSummaries(FetchTodoLists(resp)) else old(todoLists)
      ensures newListName == old(newListName) && isShared == old(isShared)
    {
      if TruthyId(userId) {
        todoLists := FromSummaries(FetchTodoLists(resp));
      }
    }

    /** The success step of `handleCreateTodoList`: the new list goes at the
        end and the form is reset. */
    method AppendAndReset(list: HomeList)
      modifies this
      ensures todoLists == old(todoLists) + [list]
      ensures newListName == "" && !isShared
    {
      todoLists := todoLists + [list];
      newListName := "";
      isShared := false;
    }

    /** `handleCreateTodoList()` with the logged-in user's id and the response
        to `POST /todolists`. After the checks pass, the request carries the
        user id, 1 or 0 for the checkbox and the name as typed. On success
        `{id, name}` is appended with the untrimmed name, the earlier lists
        are kept, and the form is reset; on a rejection, or when a check
        fails, nothing changes. */
    method HandleCreateTodoList(userId: Option<int>, resp: Response<CreateBody>)
      returns (outcome: CreateOutcome)
      modifies this
      ensures outcome.Refused? <==> CreateRejection(old(newListName), userId).Some?
      ensures outcome.Refused? ==>
        outcome == Refused(CreateRejection(old(newListName), userId).value)
      ensures !outcome.Refused? ==>
        && TruthyId(userId)
        && outcome.params == CreateParams(userId.value, if old(isShared) then 1 else 0, old(newListName))
        && (outcome.Created? <==> CreateTodoList(resp).Fulfilled?)
      ensures outcome.Created? ==>
        && todoLists == old(todoLists) + [HomeList(resp.data.id, old(newListName), None)]
        && newListName == "" && !isShared
        && outcome.alert == CreatedMessage(old(newListName))
      ensures outcome.Failed? ==> outcome.alert == CreateErrorAlert
      ensures !outcome.Created? ==>
        todoLists == old(todoLists) && newListName == old(newListName) && isShared == old(isShared)
    {
      var rejection := CreateRejection(newListName, userId);
      if rejection.Some? {
        outcome := Refused(rejection.value);
      } else {
        var name := newListName;
        var params := CreateParams(userId.value, if isShared then 1 else 0, name);
        var result := CreateTodoList(resp);
        if result.Fulfilled? {
          AppendAndReset(HomeList(result.value.id, name, None));
          outcome := Created(params, CreatedMessage(name));
        } else {
          outcome := Failed(params, CreateErrorAlert);
        }
      }
    }
  }
}

=== FILE: http.dfy ===
/** How a remote call ends, as the client sees it. Every HTTP request the
    services make is replaced by one of these values, given as an input. */
module Http {
  import opened Js

  /** The outcome of one axios request. */
  datatype Response<T> =
    /** a 2xx response and its parsed JSON body */
    | Ok(data: T)
    /** a response with a non-2xx status (`error.response` is set); `detail`
        and `message` are the like-named fields of its JSON body */
    | HttpError(status: int, detail: Option<string>, message: Option<string>)
    /** the request went out but no response came back (`error.request` is set) */
    | NoResponse
    /** the request could not be made at all */
    | Other

  /** How an async function's promise settles: with a value, or rejected
      with an `Error` whose message is given. */
  datatype Settled<T> = Fulfilled(value: T) | Rejected(message: string)
}

=== FILE: js.dfy ===
/** JavaScript value semantics the client relies on: optional fields, the
    `??` and `||` operators on them, `String.prototype.trim` and the
    `Number(...)` conversion. */
module Js {

  /** A field that may be absent (`undefined` or `null`) in a JSON record. */
  datatype Option<+T> = None | Some(value: T) {
    /** `x ?? d`: the value when present, the default otherwise. */
    function OrElse(d: T): T {
      match this
      case Some(v) => v
      case None => d
    }
  }

  /** A JavaScript number as this client meets it: an integer or NaN. */
  datatype Number = Finite(n: int) | NaN {
    /** JavaScript truthiness of a number: NaN and 0 are falsy. */
    predicate Truthy() {
      Finite? && n != 0
    }
  }

  /** A JSON value whose type the client does not know in advance. */
  datatype Value = Undefined | Null | Bool(b: bool) | Num(n: int) | Str(s: string)

  /** `if (id)` on an optional numeric id: absent and 0 are falsy. */
  predicate TruthyId(id: Option<int>) {
    id.Some? && id.value != 0
  }

  /** JavaScript truthiness of an optional string: absent and "" are falsy. */
  predicate TruthyText(s: Option<string>) {
    s.Some? && s.value != ""
  }

  /** `a || b` on two optional strings. */
  function Or(a: Option<string>, b: Option<string>): (r: Option<string>)
    ensures TruthyText(a) ==> r == a
    ensures !TruthyText(a) ==> r == b
  {
    if TruthyText(a) then a else b
  }

  /** `a || d` where the fallback `d` is a string literal. */
  function OrText(a: Option<string>, d: string): (r: string)
    ensures d != "" ==> r != ""
    ensures r == d || (TruthyText(a) && r == a.value)
    ensures TruthyText(a) ==> r == a.value
  {
    if TruthyText(a) then a.value else d
  }

  /** ECMAScript WhiteSpace and LineTerminator code points, the characters
      that `trim` removes and `Number` ignores around a numeral. */
  const WhiteSpaceChars: seq<char> := [
    ' ', '\t', '\n', '\r', '\U{000B}', '\U{000C}', '\U{00A0}', '\U{1680}',
    '\U{2000}', '\U{2001}', '\U{2002}', '\U{2003}', '\U{2004}', '\U{2005}',
    '\U{2006}', '\U{2007}', '\U{2008}', '\U{2009}', '\U{200A}',
    '\U{2028}', '\U{2029}', '\U{202F}', '\U{205F}', '\U{3000}', '\U{FEFF}'
  ]

  predicate IsWhiteSpace(c: char) {
    Occurs(c, WhiteSpaceChars)
  }

  /** `c` is one of `cs`, tested one element at a time. */
  predicate Occurs(c: char, cs: seq<char>) {
    cs != [] && (cs[0] == c || Occurs(c, cs[1..]))
  }

  lemma {:induction false} NotOccurs(c: char, cs: seq<char>)
    requires c !in cs
    ensures !Occurs(c, cs)
  {
    if cs != [] {
      assert cs == [cs[0]] + cs[1..];
      NotOccurs(c, cs[1..]);
    }
  }

  predicate AllWhiteSpace(s: string) {
    forall i :: 0 <= i < |s| ==> IsWhiteSpace(s[i])
  }

  /** The index of the first character at or after `i` that is not white
      space, or `|s|` when there is none. */
  function LeadingEnd(s: string, i: nat): (k: nat)
    requires i <= |s|
    ensures i <= k <= |s|
    ensures forall j :: i <= j < k ==> IsWhiteSpace(s[j])
    ensures k == |s| || !IsWhiteSpace(s[k])
    decreases |s| - i
  {
    if i < |s| && IsWhiteSpace(s[i]) then LeadingEnd(s, i + 1) else i
  }

  /** The index where the white space that ends `s[..hi]` begins, looking no
      further back than `lo`. */
  function TrailingStart(s: string, lo: nat, hi: nat): (e: nat)
    requires lo <= hi <= |s|
    ensures lo <= e <= hi
    ensures forall j :: e <= j < hi ==> IsWhiteSpace(s[j])
    ensures e == lo || !IsWhiteSpace(s[e - 1])
    decreases hi
  {
    if lo < hi && IsWhiteSpace(s[hi - 1]) then TrailingStart(s, lo, hi - 1) else hi
  }

  /** `s.trim()`: `s` is white space up to `TrimOffset(s)`, then the result,
      then white space to the end; the result neither starts nor ends with
      white space, so it is empty exactly when `s` is all white space. */
  function Trim(s: string): (r: string)
    ensures TrimOffset(s) + |r| <= |s|
    ensures forall i :: 0 <= i < |r| ==> r[i] == s[TrimOffset(s) + i]
    ensures forall i :: 0 <= i < TrimOffset(s) ==> IsWhiteSpace(s[i])
    ensures forall i :: TrimOffset(s) + |r| <= i < |s| ==> IsWhiteSpace(s[i])
    ensures r == [] || (!IsWhiteSpace(r[0]) && !IsWhiteSpace(r[|r| - 1]))
    ensures r == [] <==> AllWhiteSpace(s)
  {
    var k := TrimOffset(s);
    var e := TrailingStart(s, k, |s|);
    assert e == k ==> AllWhiteSpace(s);
    s[k..e]
  }

  /** Where `s.trim()` starts inside `s`. */
  function TrimOffset(s: string): (k: nat)
    ensures k <= |s|
  {
    LeadingEnd(s, 0)
  }

  predicate IsDigit(c: char) {
    '0' as int <= c as int <= '9' as int
  }

  /** A non-empty run of decimal digits. */
  predicate IsDigits(s: string) {
    |s| > 0 && forall i :: 0 <= i < |s| ==> IsDigit(s[i])
  }

  /** The value of a run of decimal digits, most significant first. */
  function DigitsValue(s: string): int {
    if s == [] then 0
    else DigitsValue(s[..|s| - 1]) * 10 + (s[|s| - 1] as int - '0' as int)
  }

  /** An optionally signed run of decimal digits. */
  predicate IsNumeral(t: string) {
    IsDigits(t) || (t != [] && (t[0] == '-' || t[0] == '+') && IsDigits(t[1..]))
  }

  /** `Number` of a string that has already been trimmed: empty is 0, an
      optionally signed run of decimal digits is its value, anything else
      is NaN here. */
  function NumeralValue(t: string): (r: Number)
    ensures t == [] ==> r == Finite(0)
    ensures IsDigits(t) ==> r == Finite(DigitsValue(t))
    ensures t != [] && t[0] == '-' && IsDigits(t[1..]) ==> r == Finite(-DigitsValue(t[1..]))
    ensures t != [] && t[0] == '+' && IsDigits(t[1..]) ==> r == Finite(DigitsValue(t[1..]))
    ensures r.NaN? <==> t != [] && !IsNumeral(t)
  {
    if t == [] then Finite(0)
    else if t[0] == '-' && IsDigits(t[1..]) then Finite(-DigitsValue(t[1..]))
    else if t[0] == '+' && IsDigits(t[1..]) then Finite(DigitsValue(t[1..]))
    else if IsDigits(t) then Finite(DigitsValue(t))
    else NaN
  }

  /** `Number(s)` for a string: white space around the numeral is ignored,
      an empty or blank string is 0, an optionally signed run of decimal
      digits is its value, and anything else is NaN here. */
  function StringToNumber(s: string): (r: Number)
    ensures AllWhiteSpace(s) ==> r == Finite(0)
    ensures IsDigits(Trim(s)) ==> r == Finite(DigitsValue(Trim(s)))
    ensures var t := Trim(s); t != [] && t[0] == '-' && IsDigits(t[1..]) ==>
      r == Finite(-DigitsValue(t[1..]))
    ensures var t := Trim(s); t != [] && t[0] == '+' && IsDigits(t[1..]) ==>
      r == Finite(DigitsValue(t[1..]))
    ensures r.NaN? <==> !AllWhiteSpace(s) && !IsNumeral(Trim(s))
  {
    var t := Trim(s);
    assert t == [] <==> AllWhiteSpace(s);
    NumeralValue(t)
  }

  /** `Number(v)` for a JSON value of unknown type. */
  function ToNumber(v: Value): (r: Number)
    ensures v.Num? ==> r == Finite(v.n)
    ensures v.Undefined? ==> r.NaN?
    ensures v.Null? ==> r == Finite(0)
    ensures v.Bool? ==> r == Finite(if v.b then 1 else 0)
    ensures v.Str? ==> r == StringToNumber(v.s)
    ensures r.NaN? <==> v.Undefined? || (v.Str? && !AllWhiteSpace(v.s) && !IsNumeral(Trim(v.s)))
  {
    match v
    case Undefined => NaN
    case Null => Finite(0)
    case Bool(b) => Finite(if b then 1 else 0)
    case Num(n) => Finite(n)
    case Str(s) => StringToNumber(s)
  }

  function DigitChar(d: nat): (c: char)
    requires d < 10
    ensures IsDigit(c) && c as int - '0' as int == d
  {
    ('0' as int + d) as char
  }

  /** The decimal numeral of a natural number, as a template literal writes it. */
  function Digits(n: nat): (s: string)
    ensures IsDigits(s)
    decreases n
  {
    if n < 10 then [DigitChar(n)] else Digits(n / 10) + [DigitChar(n % 10)]
  }

  /** `${n}` for an integer id. */
  function DecimalText(n: int): (s: string)
    ensures s != [] && !IsWhiteSpace(s[0]) && !IsWhiteSpace(s[|s| - 1])
  {
    var s := if n < 0 then "-" + Digits(-n) else Digits(n);
    VisibleAsciiNotWhiteSpace(s[0]);
    VisibleAsciiNotWhiteSpace(s[|s| - 1]);
    s
  }

  /** Digits, letters, signs and the other printable ASCII characters are
      not white space. */
  lemma VisibleAsciiNotWhiteSpace(c: char)
    requires '!' <= c <= '~'
    ensures !IsWhiteSpace(c)
  {
    assert 32 < c as int < 0xA0;
    NotOccurs(c, WhiteSpaceChars);
  }

  lemma {:induction false} DigitsValueOfDigits(n: nat)
    ensures DigitsValue(Digits(n)) == n
    decreases n
  {
    var s := Digits(n);
    if n >= 10 {
      DigitsValueOfDigits(n / 10);
      assert s[..|s| - 1] == Digits(n / 10);
    }
  }

  lemma TrimOfUnpadded(s: string)
    requires s != [] && !IsWhiteSpace(s[0]) && !IsWhiteSpace(s[|s| - 1])
    ensures Trim(s) == s
  {
    assert TrimOffset(s) == 0;
    assert TrailingStart(s, 0, |s|) == |s|;
    assert s[0..|s|] == s;
  }

  /** Writing an id into a route with a template literal and reading it back
      with `Number` gives the same id. */
  lemma {:induction false} NumberOfDecimalText(n: int)
    ensures StringToNumber(DecimalText(n)) == Finite(n)
  {
    var s := DecimalText(n);
    TrimOfUnpadded(s);
    if n < 0 {
      var d := Digits(-n);
      assert s == "-" + d;
      assert s[1..] == d;
      DigitsValueOfDigits(-n);
      assert StringToNumber(s) == Finite(-DigitsValue(d));
    } else {
      var d := Digits(n);
      assert s == d;
      assert IsDigit(s[0]);
      DigitsValueOfDigits(n);
      assert StringToNumber(s) == Finite(DigitsValue(d));
    }
  }
}

=== FILE: list_screen.dfy ===
/** frontend/app/ListScreen.tsx: every list of the user with its tasks. The
    tasks are kept in a dictionary from list id to the tasks fetched for that
    list, filled by one request per list. */
module ListScreen {
  import opened Js
  import opened Http
  import opened TaskService
  import opened TodoService

  /** The ids of some lists: the id of every list, and nothing else. */
  function IdsOf(lists: seq<TodoListSummary>): (ids: set<int>)
    ensures forall i :: 0 <= i < |lists| ==> lists[i].id in ids
    ensures forall x :: x in ids ==> exists i :: 0 <= i < |lists| && lists[i].id == x
  {
    if lists == [] then {}
    else
      var init := lists[..|lists| - 1];
      assert forall i :: 0 <= i < |init| ==> init[i] == lists[i];
      IdsOf(init) + {lists[|lists| - 1].id}
  }

  /** `taskWithDefaults` applied to a record from the un-normalized
      `fetchTasks` of the list service: such a record has no `completed`
      field, so the flag is always false; a missing list or owner id becomes
      -1 and every other field is copied. */
  function TaskWithDefaults(t: RawTask): (d: TaskDetail)
    ensures d.id == t.id && d.description == t.description && d.progress == t.progress
    ensures d.assignee == t.assignee && d.dueDate == t.dueDate && d.createdAt == t.createdAt
    ensures t.todolistId.Some? ==> d.todolistId == t.todolistId.value
    ensures t.todolistId.None? ==> d.todolistId == -1
    ensures t.ownerId.Some? ==> d.ownerId == t.ownerId.value
    ensures t.ownerId.None? ==> d.ownerId == -1
    ensures !d.completed
  {
    TaskDetail(t.id, t.description, t.progress, t.assignee, t.dueDate, t.createdAt,
                t.todolistId.OrElse(-1), t.ownerId.OrElse(-1), false)
  }

  /** The state of the screen. `tasksByList[id]` is `None` when the fetch
      for that list stored `undefined` (a body without `tasks`). */
  class ListScreen {
    var todoLists: seq<TodoListSummary>
    var selectedTodoList: Option<int>
    var tasksByList: map<int, Option<seq<RawTask>>>

    constructor ()
      ensures todoLists == [] && selectedTodoList == None && tasksByList == map[]
    {
      todoLists := [];
      selectedTodoList := None;
      tasksByList := map[];
    }

    /** `tasksByList[list.id] || []`: the tasks stored for a list, and `[]`
        for a list with no entry or an `undefined` entry. */
    function TasksFor(listId: int): (ts: seq<RawTask>)
      reads this
      ensures listId !in tasksByList ==> ts == []
      ensures listId in tasksByList && tasksByList[listId].Some? ==> ts == tasksByList[listId].value
      ensures listId in tasksByList && tasksByList[listId].None? ==> ts == []
    {
      if listId in tasksByList then tasksByList[listId].OrElse([]) else []
    }

    /** `loadTasksForList(listId)` given the response to
        `GET /tasks/{listId}`: the entry for `listId` becomes what the list
        service's `fetchTasks` returns, and every other entry stays. */
    method LoadTasksForList(listId: int, resp: Response<TasksBody>)
      modifies this
      ensures tasksByList == old(tasksByList)[listId := FetchRawTasks(resp)]
      ensures todoLists == old(todoLists) && selectedTodoList == old(selectedTodoList)
    {
      tasksByList := tasksByList[listId := FetchRawTasks(resp)];
    }

    /** The effect on `userId`, given the response to
        `GET /todolists/{userId}` and, for each list id, the response to
        `GET /tasks/{id}`. For a truthy id the lists are replaced by the
        fetched ones; if there are any, the first is selected and the tasks
        of every list are loaded, leaving the entries of other ids as they
        were. */
    method LoadTodoLists(userId: Option<int>, resp: Response<ListsBody>, answer: int -> Response<TasksBody>)
      modifies this
      ensures TruthyId(userId) ==> todoLists == FetchTodoLists(resp)
      ensures !TruthyId(userId) ==> todoLists == old(todoLists)
      ensures selectedTodoList ==
        if TruthyId(userId) && |todoLists| > 0 then Some(todoLists[0].id) else old(selectedTodoList)
      ensures var loaded := if TruthyId(userId) then IdsOf(todoLists) else {};
        && tasksByList.Keys == old(tasksByList).Keys + loaded
        && forall k :: k in tasksByList ==>
             tasksByList[k] == if k in loaded then FetchRawTasks(answer(k)) else old(tasksByList)[k]
    {
      if !TruthyId(userId) {
        return;
      }
      var lists := FetchTodoLists(resp);
      todoLists := lists;
      if |lists| > 0 {
        selectedTodoList := Some(lists[0].id);
        var i := 0;
        while i < |lists|
          invariant 0 <= i <= |lists|
          invariant todoLists == lists && selectedTodoList == Some(lists[0].id)
          invariant tasksByList.Keys == old(tasksByList).Keys + IdsOf(lists[..i])
          invariant forall k :: k in tasksByList ==>
            tasksByList[k] == if k in IdsOf(lists[..i]) then FetchRawTasks(answer(k)) else old(tasksByList)[k]
        {
          LoadTasksForList(lists[i].id, answer(lists[i].id));
          assert IdsOf(lists[..i + 1]) == IdsOf(lists[..i]) + {lists[i].id} by {
            assert lists[..i + 1][..i] == lists[..i];
          }
          i := i + 1;
        }
        assert lists[..i] == lists;
      }
    }
  }
}

=== FILE: login_screen.dfy ===
/** frontend/app/LoginScreen.tsx: the login form. `handleLogin` refuses a
    blank username, calls `loginUser`, refuses an unsuccessful response and
    a user id that is not a number, and on success stores the session and
    greets the user. */
module LoginScreen {
  import opened Js
  import opened Http
  import opened AuthService
  import AuthSlice

  const EmptyUsernameAlert := "Please enter a username!"
  const InvalidIdAlert := "Invalid user ID received."
  const RetryAlert := "An error occurred. Please try again."

  /** The text of the success alert. */
  function Greeting(username: string): string {
    "Hello, " + username + "!"
  }

  /** Where the early-return checks of `handleLogin` end. */
  datatype LoginStep =
    | EmptyUsername
    | Refused(message: string)
    | InvalidUserId
    | Accepted(userId: int)

  /** The decision sequence of `handleLogin`, given the response to
      `POST /login`: a username blank after trimming is refused whatever the
      server would say; then an unsuccessful `loginUser` result is refused
      with its message; then a `user_id` that `Number` turns into NaN is
      refused. Only a genuine server success is accepted, with the id as a
      number. */
  function Decide(username: string, resp: Response<AuthBody>): (step: LoginStep)
    ensures step == EmptyUsername <==> AllWhiteSpace(username)
    ensures step.Refused? <==> !AllWhiteSpace(username) && !LoginUser(resp).success
    ensures step.Refused? ==> step.message == LoginUser(resp).message
    ensures step == InvalidUserId <==>
      !AllWhiteSpace(username) && LoginUser(resp).success && ToNumber(LoginUser(resp).userId).NaN?
    ensures step.Accepted? ==>
      resp.Ok? && resp.data.success && ToNumber(resp.data.userId) == Finite(step.userId)
  {
    if Trim(username) == "" then EmptyUsername
    else
      var response := LoginUser(resp);
      if !response.success then Refused(response.message)
      else
        match ToNumber(response.userId)
        case NaN => InvalidUserId
        case Finite(id) => Accepted(id)
  }

  /** The alert shown and the id stored in the session, if any. */
  datatype LoginEffect = LoginEffect(alert: string, stored: Option<int>)

  /** `handleLogin` as written. The success path dispatches `setUser(...)`,
      but `setUser` is not among the slice's action creators, so the import
      is `undefined` and calling it throws a `TypeError`; the `catch` shows
      the retry alert. No login ever stores a session. */
  function HandleLoginAsWritten(username: string, resp: Response<AuthBody>): (e: LoginEffect)
    ensures e.stored == None
    ensures Decide(username, resp) == EmptyUsername ==> e.alert == EmptyUsernameAlert
    ensures Decide(username, resp).Refused? ==> e.alert == Decide(username, resp).message
    ensures Decide(username, resp) == InvalidUserId ==> e.alert == InvalidIdAlert
    ensures Decide(username, resp).Accepted? ==> e.alert == RetryAlert
  {
    match Decide(username, resp)
    case EmptyUsername => LoginEffect(EmptyUsernameAlert, None)
    case Refused(message) => LoginEffect(message, None)
    case InvalidUserId => LoginEffect(InvalidIdAlert, None)
    case Accepted(id) =>
      if "setUser" in AuthSlice.ActionCreators then LoginEffect(Greeting(username), Some(id))
      else LoginEffect(RetryAlert, None)
  }

  /** A concrete login the server accepts, that the screen as written turns
      into the retry alert without storing the session. */
  lemma AcceptedLoginIsLost()
    ensures var resp := Ok(AuthBody(true, Num(7), "Login successful"));
      && Decide("ann", resp) == Accepted(7)
      && HandleLoginAsWritten("ann", resp) == LoginEffect(RetryAlert, None)
  {
    VisibleAsciiNotWhiteSpace("ann"[0]);
    assert !AllWhiteSpace("ann");
  }

  /** `handleLogin` as evidently intended: on acceptance the session
      receives the numeric id through the action the slice does export,
      `setUserId` (the slice has no field for the username), and the user is
      greeted; every other case shows the same alert as written and leaves
      the session alone. */
  method HandleLogin(username: string, resp: Response<AuthBody>, session: AuthSlice.UserSlice)
    returns (alert: string)
    modifies session
    ensures Decide(username, resp).Accepted? ==>
      session.userId == Some(Decide(username, resp).userId) && alert == Greeting(username)
    ensures !Decide(username, resp).Accepted? ==>
      session.userId == old(session.userId) && alert == HandleLoginAsWritten(username, resp).alert
  {
    var step := Decide(username, resp);
    if step.Accepted? {
      session.SetUserId(Some(step.userId));
      alert := Greeting(username);
    } else {
      alert := HandleLoginAsWritten(username, resp).alert;
    }
  }
}

=== FILE: screens_login_screen.dfy ===
/** frontend/app/screens/LoginScreen.tsx: an earlier login form that only
    chooses a message. It stores nothing and navigates nowhere. */
module ScreensLoginScreen {
  import opened Js
  import opened Http
  import opened AuthService
  import LoginScreen

  /** `handleLogin()` given the response to `POST /login`: a blank username
      is refused first, whatever the server would say; an unsuccessful
      `loginUser` result shows its message; a success greets the user by the
      name as typed. */
  function HandleLogin(username: string, resp: Response<AuthBody>): (alert: string)
    ensures AllWhiteSpace(username) ==> alert == LoginScreen.EmptyUsernameAlert
    ensures !AllWhiteSpace(username) && !LoginUser(resp).success ==> alert == LoginUser(resp).message
    ensures !AllWhiteSpace(username) && LoginUser(resp).success ==>
      resp.Ok? && resp.data.success && alert == LoginScreen.Greeting(username)
  {
    if Trim(username) == "" then LoginScreen.EmptyUsernameAlert
    else
      var response := LoginUser(resp);
      if !response.success then response.message
      else LoginScreen.Greeting(username)
  }

  /** `loginUser` never rejects, so a failed request does not reach the
      form's own `catch`: it shows the service's failure message, which
      differs from the form's retry alert. (A success body that is not an
      object, such as JSON `null`, would reach the `catch`; such bodies are
      not modelled.) */
  lemma FailedRequestShowsServiceMessage(username: string, resp: Response<AuthBody>)
    requires !AllWhiteSpace(username) && !resp.Ok?
    ensures HandleLogin(username, resp) == RetryMessage
    ensures HandleLogin(username, resp) != LoginScreen.RetryAlert
  {
  }
}

=== FILE: task_service.dfy ===
/** frontend/api/taskService.ts: task records as the server sends them, the
    client-side `Task` with its derived `completed` flag, and the two calls
    that fetch and create tasks. Neither call ever rejects: a failure becomes
    an empty list or `null`. */
module TaskService {
  import opened Js
  import opened Http

  /** A task as the backend returns it (`RawTask`). */
  datatype RawTask = RawTask(
    id: int,
    description: string,
    progress: string,
    assignee: Option<int>,
    dueDate: Option<string>,
    createdAt: Option<string>,
    todolistId: Option<int>,
    ownerId: Option<int>)

  /** A task as the screens hold it: the raw fields plus `completed`. */
  datatype Task = Task(
    id: int,
    description: string,
    progress: string,
    assignee: Option<int>,
    dueDate: Option<string>,
    createdAt: Option<string>,
    todolistId: Option<int>,
    ownerId: Option<int>,
    completed: bool)

  /** The body of `POST /tasks` (`NewTaskPayload`); the list id is whatever
      number the screen holds, NaN included. */
  datatype NewTaskPayload = NewTaskPayload(
    description: string,
    assignee: int,
    dueDate: string,
    todolistId: Number,
    ownerId: int)

  /** The record the list and calendar screens hand to the task detail
      screen (frontend/types/types.ts:3-13): list and owner ids are always
      numbers and `completed` always a boolean. */
  datatype TaskDetail = TaskDetail(
    id: int,
    description: string,
    progress: string,
    assignee: Option<int>,
    dueDate: Option<string>,
    createdAt: Option<string>,
    todolistId: int,
    ownerId: int,
    completed: bool)

  /** The body of `GET /tasks/{id}`: its `tasks` field, absent or not an array
      when `None`. */
  datatype TasksBody = TasksBody(tasks: Option<seq<RawTask>>)

  /** The body of `POST /tasks`: its `task` field, absent when `None`. */
  datatype TaskBody = TaskBody(task: Option<RawTask>)

  /** The one progress value that does not count as completed. */
  const NotStarted := "Not Started"

  /** The server fields of a task, forgetting the derived flag. */
  function Raw(t: Task): RawTask {
    RawTask(t.id, t.description, t.progress, t.assignee, t.dueDate, t.createdAt,
            t.todolistId, t.ownerId)
  }

  /** A task whose `completed` flag agrees with its progress. */
  predicate CompletedAgrees(t: Task) {
    t.completed == (t.progress != NotStarted)
  }

  /** The object literal both calls build from a raw record: every server
      field copied unchanged, and `completed` set when the progress is
      anything but "Not Started". */
  function Normalize(raw: RawTask): (t: Task)
    ensures Raw(t) == raw
    ensures CompletedAgrees(t)
  {
    Task(raw.id, raw.description, raw.progress, raw.assignee, raw.dueDate,
         raw.createdAt, raw.todolistId, raw.ownerId, raw.progress != NotStarted)
  }

  /** A task is determined by its server fields once its flag agrees with
      them: normalizing what `Raw` keeps gives the task back. */
  lemma NormalizeRaw(t: Task)
    requires CompletedAgrees(t)
    ensures Normalize(Raw(t)) == t
  {
  }

  /** `fetchedTasks.map(...)`: one task per raw record, in the same order. */
  function NormalizeAll(raws: seq<RawTask>): (ts: seq<Task>)
    ensures |ts| == |raws|
    ensures forall i :: 0 <= i < |raws| ==> ts[i] == Normalize(raws[i])
  {
    if raws == [] then [] else [Normalize(raws[0])] + NormalizeAll(raws[1..])
  }

  /** Only "Not Started" reads as open: a task whose progress is
      "Uncompleted" is shown as completed. */
  lemma UncompletedReadsAsCompleted(raw: RawTask)
    requires raw.progress == "Uncompleted"
    ensures Normalize(raw).completed
  {
  }

  /** `fetchTasks(todolistId)` given the response to `GET /tasks/{todolistId}`:
      the normalized `tasks` array, or `[]` when the request failed or the
      body has no `tasks` array (the `.map` throws inside the `try`). */
  function FetchTasks(resp: Response<TasksBody>): (ts: seq<Task>)
    ensures resp.Ok? && resp.data.tasks.Some? ==>
      |ts| == |resp.data.tasks.value|
      && forall i :: 0 <= i < |ts| ==> Raw(ts[i]) == resp.data.tasks.value[i] && CompletedAgrees(ts[i])
    ensures !(resp.Ok? && resp.data.tasks.Some?) ==> ts == []
  {
    match resp
    case Ok(TasksBody(Some(raws))) => NormalizeAll(raws)
    case _ => []
  }

  /** `addTaskToServer(payload)` given the response to `POST /tasks`: the
      created task mapped exactly as `fetchTasks` maps each element, or
      `null` when the request failed or the body has no `task` (reading
      `createdTask.id` throws inside the `try`). */
  function AddTaskToServer(resp: Response<TaskBody>): (t: Option<Task>)
    ensures t.Some? <==> resp.Ok? && resp.data.task.Some?
    ensures t.Some? ==> FetchTasks(Ok(TasksBody(Some([resp.data.task.value])))) == [t.value]
    ensures t.Some? ==> Raw(t.value) == resp.data.task.value
  {
    match resp
    case Ok(TaskBody(Some(raw))) => Some(Normalize(raw))
    case _ => None
  }
}

=== FILE: todo_list_detail_screen.dfy ===
/** frontend/app/ToDoListDetailScreen.tsx: one list's tasks. The list id
    comes from the route, the tasks are loaded for it, a checkbox toggles a
    task's `completed` flag locally, and adding a task validates the input,
    posts it and then refetches the whole list. */
module ToDoListDetailScreen {
  import opened Js
  import opened Http
  import opened TaskService

  const EmptyTaskAlert := "Task cannot be empty!"
  const TooLongAlert := "Task text is too long. Keep it under 50 characters."
  const MissingIdsAlert := "Missing ToDoList ID or User ID."
  const AddFailedAlert := "Failed to add task."

  /** The longest task text accepted, counted before trimming. */
  const MaxTaskLength := 50

  function Flip(t: Task, id: int): Task {
    if t.id == id then t.(completed := !t.completed) else t
  }

  /** `toggleTaskCompletion(id)`: the same tasks in the same order, where a
      task's `completed` flag changes exactly when its id is `id` and nothing
      else about any task changes. */
  function ToggleCompletion(tasks: seq<Task>, id: int): (r: seq<Task>)
    ensures |r| == |tasks|
    ensures forall i :: 0 <= i < |tasks| ==> r[i] == tasks[i].(completed := r[i].completed)
    ensures forall i :: 0 <= i < |tasks| ==> (r[i].completed != tasks[i].completed <==> tasks[i].id == id)
  {
    if tasks == [] then [] else [Flip(tasks[0], id)] + ToggleCompletion(tasks[1..], id)
  }

  /** Toggling the same id twice gives the tasks back. */
  lemma ToggleTwice(tasks: seq<Task>, id: int)
    ensures ToggleCompletion(ToggleCompletion(tasks, id), id) == tasks
  {
  }

  /** The checks `addTask` makes before sending anything, in order: text
      blank after trimming, text over 50 characters (untrimmed), no list id
      or no user id. `None` means all passed. */
  function AddTaskRejection(newTask: string, selected: Option<Number>, userId: Option<int>): (alert: Option<string>)
    ensures AllWhiteSpace(newTask) ==> alert == Some(EmptyTaskAlert)
    ensures !AllWhiteSpace(newTask) && |newTask| > MaxTaskLength ==> alert == Some(TooLongAlert)
    ensures !AllWhiteSpace(newTask) && |newTask| <= MaxTaskLength && (selected.None? || userId.None?) ==>
      alert == Some(MissingIdsAlert)
    ensures alert.None? <==>
      !AllWhiteSpace(newTask) && |newTask| <= MaxTaskLength && selected.Some? && userId.Some?
  {
    if |Trim(newTask)| == 0 then Some(EmptyTaskAlert)
    else if |newTask| > MaxTaskLength then Some(TooLongAlert)
    else if selected.None? || userId.None? then Some(MissingIdsAlert)
    else None
  }

  /** What one press of "Add" did. */
  datatype AddOutcome =
    /** a check failed and nothing was sent */
    | Refused(alert: string)
    /** the payload was posted, the task was created and the list refetched */
    | Added(payload: NewTaskPayload)
    /** the payload was posted and `addTaskToServer` gave `null` */
    | NotAdded(payload: NewTaskPayload)

  /** The state of the screen. */
  class DetailScreen {
    var selectedTodoList: Option<Number>
    var tasks: seq<Task>
    var newTask: string

    constructor ()
      ensures selectedTodoList == None && tasks == [] && newTask == ""
    {
      selectedTodoList := None;
      tasks := [];
      newTask := "";
    }

    /** The text field's `onChangeText`. */
    method SetNewTask(text: string)
      modifies this
      ensures newTask == text
      ensures selectedTodoList == old(selectedTodoList) && tasks == old(tasks)
    {
      newTask := text;
    }

    /** The effect on the route's `listId`: a non-empty id is converted with
        `Number(...)` (NaN when it is not a numeral) and selected; an absent
        or empty one changes nothing. */
    method ApplyRouteParam(listId: Option<string>)
      modifies this
      ensures TruthyText(listId) ==> selectedTodoList == Some(StringToNumber(listId.value))
      ensures !TruthyText(listId) ==> selectedTodoList == old(selectedTodoList)
      ensures tasks == old(tasks) && newTask == old(newTask)
    {
      if TruthyText(listId) {
        selectedTodoList := Some(StringToNumber(listId.value));
      }
    }

    /** The effect on `selectedTodoList`, given for each list id the
        response to `GET /tasks/{id}`: when the selected id is truthy (not
        absent, 0 or NaN) the tasks become the result of `fetchTasks` for
        that id; otherwise nothing is requested. */
    method LoadTasks(fetch: Number -> Response<TasksBody>) returns (requested: bool)
      modifies this
      ensures requested <==> selectedTodoList.Some? && selectedTodoList.value.Truthy()
      ensures tasks == if requested then FetchTasks(fetch(selectedTodoList.value)) else old(tasks)
      ensures selectedTodoList == old(selectedTodoList) && newTask == old(newTask)
    {
      requested := selectedTodoList.Some? && selectedTodoList.value.Truthy();
      if requested {
        tasks := FetchTasks(fetch(selectedTodoList.value));
      }
    }

    /** The checkbox handler: a local patch, nothing is sent. */
    method ToggleTaskCompletion(id: int)
      modifies this
      ensures tasks == ToggleCompletion(old(tasks), id)
      ensures selectedTodoList == old(selectedTodoList) && newTask == old(newTask)
    {
      tasks := ToggleCompletion(tasks, id);
    }

    /** `addTask()` with the logged-in user's id, today's date, the response
        to `POST /tasks` and, for each list id, the response to
        `GET /tasks/{id}`. After
        the checks pass, the payload carries the trimmed text, the user as
        assignee and owner, and the selected list. When a task comes back the
        tasks are replaced wholesale by a refetch of the selected list and
        the text is cleared;
        otherwise nothing changes. */
    method AddTask(userId: Option<int>, today: string, addResp: Response<TaskBody>, fetch: Number -> Response<TasksBody>)
      returns (outcome: AddOutcome)
      modifies this
      ensures outcome.Refused? <==> AddTaskRejection(old(newTask), selectedTodoList, userId).Some?
      ensures outcome.Refused? ==>
        outcome == Refused(AddTaskRejection(old(newTask), selectedTodoList, userId).value)
      ensures !outcome.Refused? ==>
        && selectedTodoList.Some? && userId.Some?
        && outcome.payload == NewTaskPayload(Trim(old(newTask)), userId.value, today, selectedTodoList.value, userId.value)
        && (outcome.Added? <==> AddTaskToServer(addResp).Some?)
      ensures outcome.Added? ==> tasks == FetchTasks(fetch(selectedTodoList.value)) && newTask == ""
      ensures !outcome.Added? ==> tasks == old(tasks) && newTask == old(newTask)
      ensures selectedTodoList == old(selectedTodoList)
    {
      var rejection := AddTaskRejection(newTask, selectedTodoList, userId);
      if rejection.Some? {
        return Refused(rejection.value);
      }
      var payload := NewTaskPayload(Trim(newTask), userId.value, today, selectedTodoList.value, userId.value);
      var added := AddTaskToServer(addResp);
      if added.Some? {
        tasks := FetchTasks(fetch(selectedTodoList.value));
        newTask := "";
        outcome := Added(payload);
      } else {
        outcome := NotAdded(payload);
      }
    }
  }

  /** The alert a press of "Add" shows, if any. */
  function AlertOf(outcome: AddOutcome): (alert: Option<string>)
    ensures alert.None? <==> outcome.Added?
    ensures outcome.Refused? ==> alert == Some(outcome.alert)
    ensures outcome.NotAdded? ==> alert == Some(AddFailedAlert)
  {
    match outcome
    case Refused(a) => Some(a)
    case Added(_) => None
    case NotAdded(_) => Some(AddFailedAlert)
  }
}

=== FILE: todo_service.dfy ===
/** frontend/api/todoService.ts: the to-do list calls. Reads degrade to an
    empty result on any failure; creating and joining a list reject with a
    message the screen can show. */
module TodoService {
  import opened Js
  import opened Http
  import TaskService

  /** A list as `GET /todolists/{userId}` returns it; `shared` may be absent. */
  datatype RawTodoList = RawTodoList(id: int, name: string, shared: Option<bool>)

  /** The body of `GET /todolists/{userId}`: its `todolists` field, absent or
      falsy when `None`. */
  datatype ListsBody = ListsBody(todolists: Option<seq<RawTodoList>>)

  /** A list as the screens hold it: `{id, name, share}`. */
  datatype TodoListSummary = TodoListSummary(id: int, name: string, share: bool)

  /** The query parameters of `POST /todolists`. */
  datatype CreateParams = CreateParams(userId: int, shared: int, name: string)

  /** The body of `POST /todolists`, returned to the caller as it is. */
  datatype CreateBody = CreateBody(id: Option<int>, inviteCode: Option<string>)

  /** The body of `POST /todolists/join`. */
  datatype JoinBody = JoinBody(message: string)

  const CreateFailed := "Failed to create ToDoList"
  const InvalidInviteCode := "invalid invite code"
  const JoinServiceError := "service error, try again"
  const JoinFailed := "failed to join a list"
  const Unreachable := "unable to connect with the server"
  const OtherErrors := "other errors"

  /** The object literal built for one list: `share` is `shared ?? false`. */
  function Summarize(raw: RawTodoList): (s: TodoListSummary)
    ensures s.id == raw.id && s.name == raw.name
    ensures s.share <==> raw.shared == Some(true)
  {
    TodoListSummary(raw.id, raw.name, raw.shared.OrElse(false))
  }

  /** `.map(...)` over the lists: one summary per list, in the same order. */
  function SummarizeAll(raws: seq<RawTodoList>): (ss: seq<TodoListSummary>)
    ensures |ss| == |raws|
    ensures forall i :: 0 <= i < |raws| ==> ss[i] == Summarize(raws[i])
  {
    if raws == [] then [] else [Summarize(raws[0])] + SummarizeAll(raws[1..])
  }

  /** `fetchTodoLists(userId)` given the response to `GET /todolists/{userId}`:
      the summarized lists, `[]` when the body has no `todolists`, and `[]`
      on a 404 and on every other failure alike. */
  function FetchTodoLists(resp: Response<ListsBody>): (ls: seq<TodoListSummary>)
    ensures resp.Ok? && resp.data.todolists.Some? ==>
      var raws := resp.data.todolists.value;
      |ls| == |raws|
      && forall i :: 0 <= i < |ls| ==>
           ls[i].id == raws[i].id && ls[i].name == raws[i].name
           && (ls[i].share <==> raws[i].shared == Some(true))
    ensures !(resp.Ok? && resp.data.todolists.Some?) ==> ls == []
  {
    match resp
    case Ok(body) => SummarizeAll(body.todolists.OrElse([]))
    case _ => []
  }

  /** `fetchTasks(todolistId)` of this service given the response to
      `GET /tasks/{todolistId}`: the body's `tasks` field as it is (no
      `completed` flag is added, and an absent field stays absent), or `[]`
      when the request failed. */
  function FetchRawTasks(resp: Response<TaskService.TasksBody>): (ts: Option<seq<TaskService.RawTask>>)
    ensures resp.Ok? ==> ts == resp.data.tasks
    ensures !resp.Ok? ==> ts == Some([])
  {
    match resp
    case Ok(body) => body.tasks
    case _ => Some([])
  }

  /** `createTodoList(userId, shared, name)` given the response to
      `POST /todolists`: the body as it is, or a rejection whose message is
      the server's `detail` when there is one and "Failed to create ToDoList"
      otherwise; the message is never empty. */
  function CreateTodoList(resp: Response<CreateBody>): (r: Settled<CreateBody>)
    ensures r.Fulfilled? <==> resp.Ok?
    ensures resp.Ok? ==> r.value == resp.data
    ensures resp.HttpError? && TruthyText(resp.detail) ==> r == Rejected(resp.detail.value)
    ensures !resp.Ok? && !(resp.HttpError? && TruthyText(resp.detail)) ==> r == Rejected(CreateFailed)
    ensures r.Rejected? ==> r.message != ""
  {
    match resp
    case Ok(body) => Fulfilled(body)
    case HttpError(_, detail, _) => Rejected(OrText(detail, CreateFailed))
    case _ => Rejected(CreateFailed)
  }

  /** `joinTodoList(userId, inviteCode)` given the response to
      `POST /todolists/join`: the body, or a rejection classified in this
      order: 404, 500, any other status (the server's `detail`, else its
      `message`, else a fixed text), no response, anything else. */
  function JoinTodoList(resp: Response<JoinBody>): (r: Settled<JoinBody>)
    ensures r.Fulfilled? <==> resp.Ok?
    ensures resp.Ok? ==> r.value == resp.data
    ensures resp.HttpError? && resp.status == 404 ==> r == Rejected(InvalidInviteCode)
    ensures resp.HttpError? && resp.status == 500 ==> r == Rejected(JoinServiceError)
    ensures resp.HttpError? && resp.status != 404 && resp.status != 500 ==>
      r.Rejected?
      && (TruthyText(resp.detail) ==> r.message == resp.detail.value)
      && (!TruthyText(resp.detail) && TruthyText(resp.message) ==> r.message == resp.message.value)
      && (!TruthyText(resp.detail) && !TruthyText(resp.message) ==> r.message == JoinFailed)
    ensures resp.NoResponse? ==> r == Rejected(Unreachable)
    ensures resp.Other? ==> r == Rejected(OtherErrors)
    ensures r.Rejected? ==> r.message != ""
  {
    match resp
    case Ok(body) => Fulfilled(body)
    case HttpError(status, detail, message) =>
      var text := Or(detail, message);
      if status == 404 then Rejected(InvalidInviteCode)
      else if status == 500 then Rejected(JoinServiceError)
      else Rejected(OrText(text, JoinFailed))
    case NoResponse => Rejected(Unreachable)
    case Other => Rejected(OtherErrors)
  }

  /** A bad invite code and a server fault reject differently, whatever the
      bodies of the two responses say. */
  lemma JoinDistinguishesCodeFromFault(d1: Option<string>, m1: Option<string>, d2: Option<string>, m2: Option<string>)
    ensures JoinTodoList(HttpError(404, d1, m1)) != JoinTodoList(HttpError(500, d2, m2))
  {
  }
}
